=== FILE: README.md ===
# Chat backend core, modelled in Dafny

This project models the request-handling core of a small Flask chat backend
that relays a user's message to Claude and streams the reply back as
Server-Sent Events. It covers five pieces:

- the bounded conversation history (`ConversationManager`);
- the sliding-window rate limiter and its decorator;
- the mapping from Claude streaming events to `data:` frames
  (`ChatService.stream_response`);
- the `/api/chat` route: input check, forwarding generator, reply
  recording, and the `/api/chat/clear` route;
- `APIError` and the `handle_errors` outcome mapping.

Everything is pure: entities are immutable datatypes, and operations are
functions from the old state to the new state. The Claude client is an
abstract `EventSource` supplied as a function of the history it is given. The
clock is an integer `now` parameter. Python's `str.strip` and
`str.replace(p, "")` are modelled character by character in `PyStrings`.

Files, one module each: `wrappers.dfy` (Option), `errors.dfy`,
`conversation.dfy`, `rate_limiter.dfy`, `chat_service.dfy`, `py_strings.dfy`,
`chat_routes.dfy`.

## Model

| member | source | states |
|---|---|---|
| Errors.DefaultsAreApiError500 | src/api/utils/error_handlers.py:23-27 | an error built from a message alone has code API_ERROR and status 500, and its dictionary says so |
| Errors.ToDictRoundTrip | src/api/utils/error_handlers.py:29-40 | `to_dict` is exactly `{error: message, code, status: status_code}`: reading the body back gives the same error, and the reverse |
| Errors.HandleErrors | src/api/utils/error_handlers.py:55-68 | a normal result passes through unchanged; an APIError becomes a body from which the very same error can be read back, with the error's own status; any other exception becomes the fixed INTERNAL_ERROR body with 500; every error reply's body status equals its HTTP status |
| Conversation.New | src/api/services/conversation_manager.py:17-25 | a new manager stores the given bound and has an empty history |
| Conversation.SliceFrom | src/api/services/conversation_manager.py:50 | Python's `s[k:]` for every integer k, negative starts counting from the end, both clamped |
| Conversation.Trim | src/api/services/conversation_manager.py:43-50 | with a bound of at least 1, the history becomes its last `max` messages in their original order; a bound of 0 keeps everything (`[-0:]`); a negative bound drops the first `-max` messages |
| Conversation.AddMessage | src/api/services/conversation_manager.py:28-41 | with a bound of at least 1, the new `{role, content}` is the last entry verbatim, the length is `min(max, old length + 1)` and never exceeds the bound, and the history is the last `max` of the old history plus the new message |
| Conversation.ContextSize | src/api/services/conversation_manager.py:70-77 | the context size is the length of the history `get_messages` returns |
| Conversation.GetMessages | src/api/services/conversation_manager.py:53-60 | `get_messages` hands out exactly the stored history, in order (as a value, so the caller cannot alter the manager through it) |
| Conversation.GetMessagesAfterAdd | src/api/services/conversation_manager.py:28-60 | after `add_message` on a bounded manager, `get_messages` shows the new message last, preceded by the most recent earlier messages with only the oldest dropped, and at most `max` entries |
| Conversation.Clear | src/api/services/conversation_manager.py:62-68 | clearing empties the history and keeps the bound |
| Conversation.ClearIdempotent | src/api/services/conversation_manager.py:62-68 | clearing twice is the same as clearing once, and the size is then 0 |
| Conversation.AddAllKeepsMostRecent | src/api/services/conversation_manager.py:28-50 | after any number of adds to a bounded manager, the history is exactly the most recent `max` messages of everything added, in order, and stays bounded |
| Conversation.AddTwoKeepsMostRecent | src/api/services/conversation_manager.py:36-50 | two consecutive adds leave the last `max` of the old history followed by both messages |
| Conversation.OperationsPreserveBound | src/api/services/conversation_manager.py:48-50 | add, trim and clear keep the history within a positive bound, and trimming a bounded history changes nothing |
| Conversation.MaxOneKeepsLatest | src/api/services/conversation_manager.py:48-50 | with a bound of 1 the history is exactly the latest message |
| Conversation.ZeroBoundKeepsEverything | src/api/services/conversation_manager.py:48-50 | with a bound of 0 the history keeps every message ever added |
| RateLimiter.New | src/api/utils/rate_limiter.py:22-31 | a new limiter stores cap and period, remembers no calls, and satisfies the length invariant when the cap is not negative |
| RateLimiter.Prune | src/api/utils/rate_limiter.py:50-54 | the pruned list holds exactly the timestamps `t` with `now - t < period`, and is no longer than before |
| RateLimiter.PruneAppend | src/api/utils/rate_limiter.py:50-54 | pruning distributes over concatenation, so survivors keep their relative order |
| RateLimiter.PruneTwice | src/api/utils/rate_limiter.py:50-54 | pruning at an earlier time and then at a later one is the same as pruning at the later one |
| RateLimiter.IsAllowed | src/api/utils/rate_limiter.py:34-62 | allowed exactly when the pruned list has fewer than `max_calls` entries; the stored list becomes the pruned list, with `now` appended only when allowed; only the given identifier's entry is created or changed; the length invariant is preserved |
| RateLimiter.RateLimit | src/api/utils/rate_limiter.py:65-95 | under the shared identifier `default`, a denied call returns the RATE_LIMIT_EXCEEDED/429 body and leaves the handler's state untouched; an allowed call returns or raises exactly what the handler did |
| RateLimiter.ReplayRemembersRecentAdmissions | src/api/utils/rate_limiter.py:44-62 | for calls at non-decreasing times starting from no history, the stored list is exactly the admitted calls still inside the window, and never longer than the cap |
| RateLimiter.SlidingWindowBound | src/api/utils/rate_limiter.py:56-59 | at the time of any request, at most `max_calls` admitted requests fall in the last `period` time units |
| RateLimiter.DeniedIffWindowFull | src/api/utils/rate_limiter.py:56-62 | for requests at non-decreasing times starting from no history, a request is denied exactly when the window already holds `max_calls` admitted requests |
| ChatService.Frame | src/api/services/chat_service.py:104 | a chunk is `"data: " + text + "\n\n"`, 8 characters longer than the text, and stripping the 6-character prefix and 2-character suffix gives the text back |
| ChatService.FrameOfUnframe | src/api/services/chat_service.py:104 | every frame-shaped chunk is the frame of its payload |
| ChatService.StreamFrames | src/api/services/chat_service.py:98-109 | every yielded chunk is a frame, and there are no more chunks than events |
| ChatService.StopIndex | src/api/services/chat_service.py:107-109 | the position of the first `message_stop`, with no stop before it |
| ChatService.StreamFramesAreDeltaFrames | src/api/services/chat_service.py:98-109 | the chunks are exactly one frame per `content_block_delta` with a `text` before the first `message_stop`, in event order; other events yield nothing |
| ChatService.NothingAfterStop | src/api/services/chat_service.py:107-109 | events after the first `message_stop` never influence the output |
| ChatService.RecoverText | src/api/services/chat_service.py:104 | unframing and joining a list of frames removes exactly 8 characters per frame |
| ChatService.RecoverTextOfFrames | src/api/services/chat_service.py:104 | unframing and joining the frames of some texts gives the joined texts |
| ChatService.StreamRoundTrip | src/api/services/chat_service.py:98-109 | unframing and joining the whole output gives the joined delta texts before the first `message_stop` |
| ChatService.StreamResponse | src/api/services/chat_service.py:65-120 | a failing client call re-raises CLAUDE_API_ERROR/502 unchanged with no chunks; otherwise the chunks are the stream's frames, and an error is raised exactly when the stream fails before any `message_stop`, as STREAMING_ERROR/500 |
| PyStrings.Strip | src/api/routes/chat_routes.py:82 | `strip()` returns the infix after the leading whitespace; everything cut off is whitespace; the result neither starts nor ends with whitespace; it is empty exactly when the input is all whitespace |
| PyStrings.StripIdempotent | src/api/routes/chat_routes.py:82 | stripping twice is stripping once |
| PyStrings.RemoveAll | src/api/routes/chat_routes.py:106 | `replace(p, "")` never lengthens the text, leaves text without `p` unchanged, and when `p` occurs it removes at least one whole occurrence (the result is at least `len(p)` shorter) |
| PyStrings.RemoveFirstOccurrence | src/api/routes/chat_routes.py:106 | `replace(p, "")` keeps the text before the first occurrence of `p`, deletes that occurrence and continues after it; together with the no-occurrence case of `RemoveAll` this determines the result on every input, so every occurrence met by the left-to-right scan is deleted |
| PyStrings.RemoveTerminator | src/api/routes/chat_routes.py:106 | deleting every blank line from `t + "\n\n"` gives `t` back when `t` has no blank line of its own |
| ChatRoutes.ReadMessage | src/api/routes/chat_routes.py:74-89 | a non-JSON request is INVALID_REQUEST/400; a request is accepted exactly when its body is an object whose `message` is a string that is not all whitespace, and the value is the stripped message; a missing or blank message is MISSING_MESSAGE/400; an unparseable body, a non-object body or a non-string message raises a non-API exception |
| ChatRoutes.RebuildAsWritten | src/api/routes/chat_routes.py:103-106 | the reply rebuilt as written is never longer than the joined chunks |
| ChatRoutes.RebuildCleanFrame | src/api/routes/chat_routes.py:106 | for a text without `"data: "` or `"\n\n"`, the rebuilding of its frame gives the text back |
| ChatRoutes.RebuildAgreesWhenClean | src/api/routes/chat_routes.py:103-106 | when no delta text holds `"data: "` or `"\n\n"`, the rebuilt reply is the joined delta texts |
| ChatRoutes.RebuildDropsBlankLines | src/api/routes/chat_routes.py:106 | a delta `"a\n\nb"` is recorded as `"ab"`, while its frame's payload is `"a\n\nb"` |
| ChatRoutes.Generate | src/api/routes/chat_routes.py:100-116 | every chunk is forwarded unchanged and in order; on completion exactly one assistant message holding the rebuilt text is added; on failure exactly one error frame follows the forwarded chunks and no message is recorded |
| ChatRoutes.GenerateIntended | src/api/routes/chat_routes.py:100-116 | the corrected generator emits the same frames and records the unframed, joined payloads |
| ChatRoutes.GenerateIntendedRecordsDeltaTexts | src/api/routes/chat_routes.py:103-110 | with the corrected rebuilding, any finished stream is recorded as exactly the joined delta texts |
| ChatRoutes.GenerateFinishedStream | src/api/routes/chat_routes.py:103-110 | a finished stream of clean delta texts is forwarded as one frame per text and recorded as one assistant message holding the joined texts |
| ChatRoutes.HandleChat | src/api/routes/chat_routes.py:91-116 | an invalid request leaves the conversation unchanged; a valid one adds the stripped message as `user` and streams the answer to the snapshot taken right after that add |
| ChatRoutes.Chat | src/api/routes/chat_routes.py:52-116 | the limiter is consulted first, so even invalid requests count; a throttled request answers 429 and leaves the conversation unchanged; validation errors become their 400 bodies and other exceptions INTERNAL_ERROR/500; a valid request returns the generated frames |
| ChatRoutes.ChatAdmitted | src/api/routes/chat_routes.py:91-116 | an admitted valid request is answered with the frames `generate()` produces for the snapshot, and leaves the conversation `generate()` leaves |
| ChatRoutes.ChatRecordsBothTurns | src/api/routes/chat_routes.py:91-110 | end to end, a finished clean stream yields one frame per delta text, and the history becomes the last `max` of the old history plus the user message plus the joined reply |
| ChatRoutes.ChatFailureRecordsOnlyUser | src/api/routes/chat_routes.py:112-116 | end to end, a failed model call or a stream failure yields the frames so far plus exactly one error frame in a normal reply, and only the user message is recorded |
| ChatRoutes.ClearConversation | src/api/routes/chat_routes.py:130-141 | clearing empties the conversation, keeps the limiter, and answers status `ok` |
| ChatRoutes.ClearTwice | src/api/routes/chat_routes.py:130-141 | a second clear finds the cleared state and leaves it as it is, with the same reply |
| ChatRoutes.FirstChatAdmitted | src/api/utils/rate_limiter.py:76-92 | the limiter built once by `rate_limit(max_calls=10, period=60)` starts empty, so the first request after start-up is never throttled |
| ChatRoutes.ChatEndpointWindow | src/api/routes/chat_routes.py:54 | for the chat endpoint's own limiter, at most 10 admitted requests fall in any 60-second window, for requests at non-decreasing times after start-up |

## Left out

- Flask wiring, blueprints, CORS, response headers, the health endpoint, request IDs, logging, configuration loading and entry points: plumbing with no behaviour to state.
- The Anthropic client call (`client.messages.create`): a foreign library. It is the abstract `EventSource` (events, or a failure described by its text). Its parameters (model, `max_tokens`) are not modelled.
- Wall-clock time: `time()` returns a float; the model uses integer timestamps passed in as `now`.
- RateLimiter.DeniedIffWindowFull: proved only for requests at non-decreasing times, starting from an empty history, with a positive period; a clock that goes backwards is not covered.
- ChatRoutes.ChatEndpointWindow: states the bound for the limiter's answers replayed over the request times; that each `Chat` call advances the limiter by exactly one `is_allowed` step is `Chat`'s own contract, and the sequence of whole exchanges is not folded into one function.
- RateLimiter.SlidingWindowBound: proved only for requests at non-decreasing times, starting from an empty history; a clock that goes backwards is not covered.
- Laziness and concurrency: the generator runs after the decorators have returned, and the server may run threads. The model runs each request to completion, one at a time. Errors inside `generate()` never reach `handle_errors`, because the generator catches them itself; the model reflects this.
- Client disconnects: closing the generator raises `GeneratorExit`, which is not an `Exception`, so `generate()` does not catch it (chat_routes.py line 113); no assistant message is recorded and no error frame is sent. The model runs every stream to its end and cannot express an abandoned one.
- Non-API exceptions carry only a descriptive text. The exact werkzeug and `AttributeError` messages are not modelled.
- `get_messages` returning a copy: Dafny sequences are values, so a caller cannot change the stored history through the result. No separate property is needed.
- Behaviour some tests expect but the code does not implement is not modelled: a 10000-character limit, rejection of control characters, JSON-encoded frame payloads, a 400 reply for an unparseable body (the code answers 500 via `handle_errors`), a 400 reply for a `message` that is a number, list, object or `null` (`.strip()` raises `AttributeError`, so the code answers INTERNAL_ERROR/500, which `ReadMessage` models), and an `APIError` from `stream_response` propagating out of the route (the code catches it in `generate()` and sends the error frame, as the model does).
- The docstring's "keeps at least one user message" (conversation_manager.py line 46) is not implemented by the code, and the model follows the code.
- `str.strip` handles exactly the whitespace characters of `str.isspace`. No other Unicode processing is done.

## Findings

| source | as written | input that shows it | evidently intended | confidence | as-written member | corrected member |
|---|---|---|---|---|---|---|
| src/api/routes/chat_routes.py:106 | the reply is rebuilt with `chunk.replace("data: ", "").replace("\n\n", "")`, which deletes those strings anywhere in the chunk, including inside the model's text | a delta text `"a\n\nb"`, sent as the frame `data: a\n\nb\n\n`, is recorded in the history as `"ab"` (also: any text containing `data: ` loses it) | remove only each frame's 6-character prefix and 2-character terminator, so the recorded reply is exactly the streamed text | medium; not executed | ChatRoutes.RebuildAsWritten (exhibited by ChatRoutes.RebuildDropsBlankLines) | ChatRoutes.GenerateIntended (proved by ChatRoutes.GenerateIntendedRecordsDeltaTexts) |

`ChatRoutes.Chat` keeps the rebuilding as written, so it matches the code.
`ChatRoutes.RebuildAgreesWhenClean` shows that the two rebuildings agree
whenever no delta text contains `"data: "` or `"\n\n"`.

=== FILE: chat_routes.dfy ===
/** The chat endpoints of src/api/routes/chat_routes.py: the input check of
    `chat()`, the `generate()` stream that forwards frames and records the reply,
    the decorator stack around `chat()`, and `clear_conversation`. */
module ChatRoutes {
  import opened Wrappers
  import opened Errors
  import opened PyStrings
  import opened Conversation
  import opened RateLimiter
  import opened ChatService

  /** A JSON value, as far as the route looks at it. */
  datatype Json = JString(s: string) | JNonString

  /** The body of a request that declares a JSON content type. */
  datatype Body =
    | Malformed                            // not parseable as JSON
    | NonObject                            // JSON, but not an object (a list, a number, null, ...)
    | Object(fields: map<string, Json>)

  /** An incoming POST: without a JSON content type, or with one and its body. */
  datatype Request = NotJson | JsonRequest(body: Body)

  /** The process-wide state the routes share: the limiter of the `rate_limit`
      decorator on `chat()` and the conversation manager. */
  datatype Server = Server(limiter: Limiter, conversation: Manager)

  /** One handled request: the state after it and the reply. */
  datatype Exchange<+T> = Exchange(server: Server, response: Response<T>)

  /** What `generate()` emitted and the conversation it left. */
  datatype Generated = Generated(frames: seq<string>, conversation: Manager)

  /** The JSON `{status, message}` of the clear endpoint. */
  datatype ClearReply = ClearReply(status: string, message: string)

  const MustBeJson: ApiError := ApiError("Request must be JSON", "INVALID_REQUEST", 400)
  const MessageRequired: ApiError := ApiError("Message is required", "MISSING_MESSAGE", 400)

  /** The frame `generate()` emits when the stream fails. */
  const ErrorFrame: string := "data: {\"error\": \"Streaming error\"}\n\n"

  /** The limits `chat()` is decorated with: 10 calls per 60 seconds. */
  const ChatMaxCalls: int := 10
  const ChatPeriod: int := 60

  /** The state right after start-up: the decorator's limiter with no calls
      remembered and an empty conversation bounded by the configured
      `MAX_CONTEXT_MESSAGES`. */
  function InitialServer(maxContext: int): Server {
    Server(RateLimiter.New(ChatMaxCalls, ChatPeriod), Conversation.New(maxContext))
  }

  const UserRole: string := "user"
  const AssistantRole: string := "assistant"

  /** The message a request carries, when its body is an object: `data.get('message', '')`. */
  function RawMessage(fields: map<string, Json>): Json {
    if "message" in fields then fields["message"] else JString("")
  }

  /** The input check of `chat()`: a request without a JSON content type is
      INVALID_REQUEST/400; the message is stripped and an empty result is
      MISSING_MESSAGE/400; a body that does not parse, is not an object, or holds
      a non-string message makes the route raise something other than an
      `APIError`. */
  function ReadMessage(req: Request): (r: Outcome<string>)
    ensures req.NotJson? ==> r == RaisedApi(MustBeJson)
    ensures r.Returned? <==>
      req.JsonRequest? && req.body.Object? && RawMessage(req.body.fields).JString?
      && !AllSpace(RawMessage(req.body.fields).s)
    ensures r.Returned? ==> r.value == Strip(RawMessage(req.body.fields).s) && |r.value| > 0
    ensures (req.JsonRequest? && req.body.Object? && RawMessage(req.body.fields).JString?
             && AllSpace(RawMessage(req.body.fields).s)) ==> r == RaisedApi(MessageRequired)
    ensures req.JsonRequest? && req.body.Object? && "message" !in req.body.fields ==> r == RaisedApi(MessageRequired)
    ensures r == RaisedApi(MustBeJson) <==> req.NotJson?
    ensures r.RaisedApi? ==> r.error == MustBeJson || r.error == MessageRequired
    ensures r.RaisedOther? <==>
      req.JsonRequest? && (req.body.Malformed? || req.body.NonObject? || RawMessage(req.body.fields).JNonString?)
  {
    match req
    case NotJson => RaisedApi(MustBeJson)
    case JsonRequest(Malformed) => RaisedOther("400 Bad Request: Failed to decode JSON object")
    case JsonRequest(NonObject) => RaisedOther("object has no attribute 'get'")
    case JsonRequest(Object(fields)) =>
      match RawMessage(fields)
      case JNonString => RaisedOther("object has no attribute 'strip'")
      case JString(s) =>
        var message := Strip(s);
        if |message| == 0 then RaisedApi(MessageRequired) else Returned(message)
  }

  /** One chunk's contribution to the reply as the route computes it:
      `chunk.replace("data: ", "").replace("\n\n", "")`. */
  function RebuildChunk(chunk: string): string {
    RemoveAll(RemoveAll(chunk, FramePrefix), FrameSuffix)
  }

  /** The reply text `generate()` accumulates from the chunks, as written. */
  function RebuildAsWritten(chunks: seq<string>): (text: string)
    ensures |text| <= |Concat(chunks)|
    decreases |chunks|
  {
    if |chunks| == 0 then "" else RebuildChunk(chunks[0]) + RebuildAsWritten(chunks[1..])
  }

  /** A delta text that contains neither the frame prefix nor a blank line. */
  predicate Clean(text: string) {
    !Occurs(text, FramePrefix) && !Occurs(text, FrameSuffix)
  }

  /** For a clean text, the route's rebuilding of its frame gives the text back. */
  lemma RebuildCleanFrame(text: string)
    requires Clean(text)
    ensures RebuildChunk(Frame(text)) == text
  {
    assert Frame(text) == FramePrefix + (text + FrameSuffix);
    RemoveLeading(FramePrefix, text + FrameSuffix);
    NoOccurrenceAcross(text, FrameSuffix, FramePrefix);
    RemoveTerminator(text);
  }

  /** When no delta text is unclean, the as-written rebuilding agrees with
      joining the delta texts. */
  lemma {:induction false} RebuildAgreesWhenClean(texts: seq<string>)
    requires forall i :: 0 <= i < |texts| ==> Clean(texts[i])
    ensures RebuildAsWritten(Frames(texts)) == Concat(texts)
    decreases |texts|
  {
    if |texts| > 0 {
      RebuildCleanFrame(texts[0]);
      assert Frames(texts)[1..] == Frames(texts[1..]);
      RebuildAgreesWhenClean(texts[1..]);
    }
  }

  /** The as-written rebuilding loses text: a delta holding a blank line is
      recorded without it, although the frame payloads still carry it. */
  lemma RebuildDropsBlankLines()
    ensures RebuildAsWritten([Frame("a\n\nb")]) == "ab"
    ensures RecoverText([Frame("a\n\nb")]) == "a\n\nb"
  {
    var chunk := Frame("a\n\nb");
    assert chunk == "data: a\n\nb\n\n";
    assert RemoveAll(chunk, FramePrefix) == "a\n\nb\n\n" by {
      RemoveLeading(FramePrefix, "a\n\nb\n\n");
      var rest := "a\n\nb\n\n";
      assert rest[..6][0] != FramePrefix[0];
    }
    assert RemoveAll("a\n\nb\n\n", FrameSuffix) == "ab" by {
      assert RemoveAll("\n\n", FrameSuffix) == "";
      assert RemoveAll("b\n\n", FrameSuffix) == "b";
      assert RemoveAll("\n\nb\n\n", FrameSuffix) == "b";
    }
  }

  /** The generator behind the chat response: forward every chunk unchanged;
      on success record the rebuilt reply as one assistant message; on failure
      emit exactly one error frame after what was already forwarded and record
      nothing. */
  function Generate(outcome: StreamOutcome, conv: Manager): (g: Generated)
    ensures |g.frames| >= |outcome.chunks| && g.frames[..|outcome.chunks|] == outcome.chunks
    ensures outcome.error.None? ==>
      g.frames == outcome.chunks
      && g.conversation == AddMessage(conv, AssistantRole, RebuildAsWritten(outcome.chunks))
    ensures outcome.error.Some? ==> g.frames == outcome.chunks + [ErrorFrame] && g.conversation == conv
  {
    match outcome.error
    case None => Generated(outcome.chunks, AddMessage(conv, AssistantRole, RebuildAsWritten(outcome.chunks)))
    case Some(_) => Generated(outcome.chunks + [ErrorFrame], conv)
  }

  /** The generator with the reply rebuilt as evidently intended: each frame
      loses only its own prefix and terminator. */
  function GenerateIntended(outcome: StreamOutcome, conv: Manager): (g: Generated)
    requires forall i :: 0 <= i < |outcome.chunks| ==> IsFrame(outcome.chunks[i])
    ensures g.frames == Generate(outcome, conv).frames
    ensures outcome.error.None? ==> g.conversation == AddMessage(conv, AssistantRole, RecoverText(outcome.chunks))
    ensures outcome.error.Some? ==> g.conversation == conv
  {
    match outcome.error
    case None => Generated(outcome.chunks, AddMessage(conv, AssistantRole, RecoverText(outcome.chunks)))
    case Some(_) => Generated(outcome.chunks + [ErrorFrame], conv)
  }

  /** With the intended rebuilding, every finished stream is recorded as the
      exact joined delta texts, whatever they contain. */
  lemma GenerateIntendedRecordsDeltaTexts(events: seq<Event>, failure: Option<string>, conv: Manager)
    requires failure.None? || StopIndex(events) < |events|
    ensures var texts := DeltaTexts(events[..StopIndex(events)]);
            GenerateIntended(StreamResponse(Streamed(events, failure)), conv)
              == Generated(Frames(texts), AddMessage(conv, AssistantRole, Concat(texts)))
  {
    StreamFramesAreDeltaFrames(events);
    StreamRoundTrip(events);
  }

  /** The body of `chat()` run against the conversation `conv`, with `claude`
      the model's answer to a history. On a valid message it records the user
      message, takes a snapshot, and streams the answer to that snapshot. */
  function HandleChat(req: Request, claude: seq<Message> -> EventSource, conv: Manager): (r: (Manager, Outcome<seq<string>>))
    ensures !ReadMessage(req).Returned? ==> r.0 == conv
    ensures r.1.Returned? <==> ReadMessage(req).Returned?
    ensures ReadMessage(req).Returned? ==>
      var withUser := AddMessage(conv, UserRole, ReadMessage(req).value);
      var g := Generate(StreamResponse(claude(withUser.messages)), withUser);
      r == (g.conversation, Returned(g.frames))
  {
    match ReadMessage(req)
    case Returned(message) =>
      var withUser := AddMessage(conv, UserRole, message);
      var snapshot := GetMessages(withUser);
      var g := Generate(StreamResponse(claude(snapshot)), withUser);
      (g.conversation, Returned(g.frames))
    case RaisedApi(e) => (conv, RaisedApi(e))
    case RaisedOther(why) => (conv, RaisedOther(why))
  }

  /** `POST /api/chat` at time `now`: `handle_errors` around `rate_limit` around
      the body of `chat()`. */
  function Chat(server: Server, now: int, req: Request, claude: seq<Message> -> EventSource): (x: Exchange<Gated<seq<string>>>)
    ensures x.server.limiter == IsAllowed(server.limiter, SharedIdentifier, now).limiter
    ensures !IsAllowed(server.limiter, SharedIdentifier, now).allowed ==>
      x.server.conversation == server.conversation
      && x.response == Passed(Throttled(RateLimitedBody, RateLimitedStatus))
    ensures IsAllowed(server.limiter, SharedIdentifier, now).allowed ==>
      x.server.conversation == HandleChat(req, claude, server.conversation).0
    ensures IsAllowed(server.limiter, SharedIdentifier, now).allowed && ReadMessage(req).RaisedApi? ==>
      x.response == ErrorReply(ToDict(ReadMessage(req).error), 400)
    ensures IsAllowed(server.limiter, SharedIdentifier, now).allowed && ReadMessage(req).RaisedOther? ==>
      x.response == ErrorReply(InternalErrorBody, 500)
    ensures IsAllowed(server.limiter, SharedIdentifier, now).allowed && ReadMessage(req).Returned? ==>
      x.response == Passed(Forwarded(HandleChat(req, claude, server.conversation).1.value))
  {
    var guarded := RateLimit(server.limiter, now, server.conversation, (c: Manager) => HandleChat(req, claude, c));
    Exchange(Server(guarded.limiter, guarded.state), HandleErrors(guarded.outcome))
  }

  /** The history the model is asked to answer: the conversation right after
      the user message was recorded. */
  function Snapshot(server: Server, req: Request): seq<Message>
    requires ReadMessage(req).Returned?
  {
    AddMessage(server.conversation, UserRole, ReadMessage(req).value).messages
  }

  /** A stream that finishes (it stops, or it runs out without failing) and
      whose delta texts are clean is forwarded frame by frame and recorded as one
      assistant message holding the joined texts. */
  lemma GenerateFinishedStream(events: seq<Event>, failure: Option<string>, conv: Manager)
    requires failure.None? || StopIndex(events) < |events|
    requires var texts := DeltaTexts(events[..StopIndex(events)]);
             forall i :: 0 <= i < |texts| ==> Clean(texts[i])
    ensures var texts := DeltaTexts(events[..StopIndex(events)]);
            Generate(StreamResponse(Streamed(events, failure)), conv)
              == Generated(Frames(texts), AddMessage(conv, AssistantRole, Concat(texts)))
  {
    var texts := DeltaTexts(events[..StopIndex(events)]);
    StreamFramesAreDeltaFrames(events);
    RebuildAgreesWhenClean(texts);
  }

  /** An admitted request with a valid message is answered with the frames of
      `generate()` over the model's answer to the snapshot. */
  lemma ChatAdmitted(server: Server, now: int, req: Request, claude: seq<Message> -> EventSource)
    requires IsAllowed(server.limiter, SharedIdentifier, now).allowed
    requires ReadMessage(req).Returned?
    ensures var withUser := AddMessage(server.conversation, UserRole, ReadMessage(req).value);
            var g := Generate(StreamResponse(claude(withUser.messages)), withUser);
            && Chat(server, now, req, claude).response == Passed(Forwarded(g.frames))
            && Chat(server, now, req, claude).server.conversation == g.conversation
  {
  }

  /** A successful exchange, end to end: when the model's stream finishes and
      no delta text holds a frame prefix or a blank line, the client receives one
      frame per delta text and the conversation gains the user message followed
      by the joined reply, trimmed to the bound. */
  lemma ChatRecordsBothTurns(server: Server, now: int, req: Request, claude: seq<Message> -> EventSource)
    requires IsAllowed(server.limiter, SharedIdentifier, now).allowed
    requires Bounded(server.conversation)
    requires ReadMessage(req).Returned?
    requires claude(Snapshot(server, req)).Streamed?
    requires var src := claude(Snapshot(server, req));
             src.failure.None? || StopIndex(src.events) < |src.events|
    requires var events := claude(Snapshot(server, req)).events;
             var texts := DeltaTexts(events[..StopIndex(events)]);
             forall i :: 0 <= i < |texts| ==> Clean(texts[i])
    ensures var events := claude(Snapshot(server, req)).events;
            var texts := DeltaTexts(events[..StopIndex(events)]);
            var x := Chat(server, now, req, claude);
            && x.response == Passed(Forwarded(Frames(texts)))
            && x.server.conversation.messages
               == LastN(server.conversation.messages
                        + [Message(UserRole, ReadMessage(req).value), Message(AssistantRole, Concat(texts))],
                        server.conversation.maxContext)
  {
    var conv := server.conversation;
    var message := ReadMessage(req).value;
    var src := claude(Snapshot(server, req));
    var texts := DeltaTexts(src.events[..StopIndex(src.events)]);
    var withUser := AddMessage(conv, UserRole, message);
    ChatAdmitted(server, now, req, claude);
    GenerateFinishedStream(src.events, src.failure, withUser);
    AddTwoKeepsMostRecent(conv, Message(UserRole, message), Message(AssistantRole, Concat(texts)));
  }

  /** A failing exchange, end to end: when the model call fails, or the stream
      fails before any `message_stop`, the client still gets a normal streamed
      reply holding the frames produced so far and then exactly one error frame,
      and only the user message is recorded. */
  lemma ChatFailureRecordsOnlyUser(server: Server, now: int, req: Request, claude: seq<Message> -> EventSource)
    requires IsAllowed(server.limiter, SharedIdentifier, now).allowed
    requires ReadMessage(req).Returned?
    requires var src := claude(Snapshot(server, req));
             src.CallFailed? || (src.failure.Some? && StopIndex(src.events) == |src.events|)
    ensures var src := claude(Snapshot(server, req));
            var x := Chat(server, now, req, claude);
            && x.response == Passed(Forwarded(StreamResponse(src).chunks + [ErrorFrame]))
            && (src.CallFailed? ==> x.response == Passed(Forwarded([ErrorFrame])))
            && x.server.conversation == AddMessage(server.conversation, UserRole, ReadMessage(req).value)
  {
    ChatAdmitted(server, now, req, claude);
  }

  /** `POST /api/chat/clear`: empty the conversation and answer `ok`. */
  function ClearConversation(server: Server): (x: Exchange<ClearReply>)
    ensures x.server.limiter == server.limiter
    ensures x.server.conversation == Clear(server.conversation)
    ensures x.response == Passed(ClearReply("ok", "Conversation cleared"))
  {
    Exchange(server.(conversation := Clear(server.conversation)), HandleErrors(Returned(ClearReply("ok", "Conversation cleared"))))
  }

  /** Clearing twice leaves the same state as clearing once, and both calls succeed. */
  lemma ClearTwice(server: Server)
    ensures ClearConversation(ClearConversation(server).server) == Exchange(ClearConversation(server).server, ClearConversation(server).response)
    ensures ClearConversation(server).server.conversation.messages == []
  {
  }

  /** Right after start-up the first request is never throttled: it reaches
      the body of `chat()`, whose outcome decides the reply. */
  lemma FirstChatAdmitted(maxContext: int, now: int, req: Request, claude: seq<Message> -> EventSource)
    ensures IsAllowed(InitialServer(maxContext).limiter, SharedIdentifier, now).allowed
    ensures !Chat(InitialServer(maxContext), now, req, claude).response.Passed?
            || Chat(InitialServer(maxContext), now, req, claude).response.value.Forwarded?
  {
    var l := InitialServer(maxContext).limiter;
    assert History(l, SharedIdentifier) == [];
  }

  /** The chat endpoint's own limit: for requests arriving at non-decreasing
      times after start-up, each of which passes the shared limiter once (as
      `Chat` does), at most 10 admitted requests fall in any 60-second window. */
  lemma ChatEndpointWindow(maxContext: int, times: seq<int>, k: nat)
    requires NonDecreasing(times) && k < |times|
    ensures var answers := Replay(InitialServer(maxContext).limiter, SharedIdentifier, times).1;
            |Prune(Admitted(times[..k + 1], answers[..k + 1]), times[k], 60)| <= 10
  {
    var l := InitialServer(maxContext).limiter;
    assert History(l, SharedIdentifier) == [];
    SlidingWindowBound(l, SharedIdentifier, times, k);
  }
}

=== FILE: chat_service.dfy ===
/** `ChatService.stream_response` (src/api/services/chat_service.py): the
    mapping from the Claude client's streaming events to Server-Sent Events
    `data:` frames, and the wrapping of its failures. The client call itself is
    an abstract event source. */
module ChatService {
  import opened Wrappers
  import opened Errors

  /** A streaming event: its `type`, and the `text` attribute of its delta when it has one. */
  datatype Event = Event(kind: string, deltaText: Option<string>)

  /** What the Claude client does when asked for a stream: the call itself
      fails (with an exception described by its text), or it yields events and
      possibly fails after the last of them. */
  datatype EventSource =
    | CallFailed(reason: string)
    | Streamed(events: seq<Event>, failure: Option<string>)

  /** What `stream_response` produced: the chunks it yielded, in order, and the
      `APIError` it raised after them, if any. */
  datatype StreamOutcome = StreamOutcome(chunks: seq<string>, error: Option<ApiError>)

  const ContentBlockDelta: string := "content_block_delta"
  const MessageStop: string := "message_stop"

  /** The field name and blank-line terminator of a Server-Sent Events `data:` frame. */
  const FramePrefix: string := "data: "
  const FrameSuffix: string := "\n\n"

  /** A chunk shaped as one frame: the prefix, a payload, the terminator. */
  predicate IsFrame(chunk: string) {
    |chunk| >= |FramePrefix| + |FrameSuffix|
    && chunk[..|FramePrefix|] == FramePrefix
    && chunk[|chunk| - |FrameSuffix|..] == FrameSuffix
  }

  /** The payload of a frame: the chunk without its 6-character prefix and 2-character suffix. */
  function Unframe(chunk: string): string
    requires IsFrame(chunk)
  {
    chunk[|FramePrefix|..|chunk| - |FrameSuffix|]
  }

  /** `f"data: {text_chunk}\n\n"`: a frame whose payload is exactly `text`. */
  function Frame(text: string): (chunk: string)
    ensures IsFrame(chunk) && Unframe(chunk) == text
    ensures |chunk| == |text| + 8
  {
    FramePrefix + text + FrameSuffix
  }

  /** Framing and unframing are inverse: a frame is determined by its payload. */
  lemma FrameOfUnframe(chunk: string)
    requires IsFrame(chunk)
    ensures Frame(Unframe(chunk)) == chunk
  {
    assert chunk == chunk[..6] + chunk[6..|chunk| - 2] + chunk[|chunk| - 2..];
  }

  /** The message `send_message` raises when the client call fails. */
  function CallError(reason: string): ApiError {
    ApiError("Failed to communicate with Claude API: " + reason, "CLAUDE_API_ERROR", 502)
  }

  /** The message `stream_response` raises for any other failure. */
  function StreamingError(reason: string): ApiError {
    ApiError("Streaming failed: " + reason, "STREAMING_ERROR", 500)
  }

  /** The `for event in stream` loop: a text delta yields its frame, the first
      `message_stop` ends the loop, every other event is skipped. */
  function StreamFrames(events: seq<Event>): (chunks: seq<string>)
    ensures forall i :: 0 <= i < |chunks| ==> IsFrame(chunks[i])
    ensures |chunks| <= |events|
    decreases |events|
  {
    if |events| == 0 then []
    else
      var e := events[0];
      if e.kind == ContentBlockDelta then
        (if e.deltaText.Some? then [Frame(e.deltaText.value)] else []) + StreamFrames(events[1..])
      else if e.kind == MessageStop then []
      else StreamFrames(events[1..])
  }

  /** Reference definitions, independent of the loop. The position of the first
      `message_stop` (the length when there is none). */
  function StopIndex(events: seq<Event>): (k: nat)
    ensures k <= |events|
    ensures k < |events| ==> events[k].kind == MessageStop
    ensures forall i :: 0 <= i < k ==> events[i].kind != MessageStop
    decreases |events|
  {
    if |events| == 0 then 0
    else if events[0].kind == MessageStop then 0
    else 1 + StopIndex(events[1..])
  }

  /** The texts of the text deltas among `events`, in order. */
  function DeltaTexts(events: seq<Event>): (texts: seq<string>)
    ensures |texts| <= |events|
    decreases |events|
  {
    if |events| == 0 then []
    else
      var e := events[0];
      (if e.kind == ContentBlockDelta && e.deltaText.Some? then [e.deltaText.value] else [])
        + DeltaTexts(events[1..])
  }

  /** The frames of the given texts, one each, in order. */
  function Frames(texts: seq<string>): (chunks: seq<string>)
    ensures |chunks| == |texts|
    ensures forall i :: 0 <= i < |texts| ==> chunks[i] == Frame(texts[i])
  {
    seq(|texts|, i requires 0 <= i < |texts| => Frame(texts[i]))
  }

  /** All strings of `ss` joined with nothing between them. */
  function Concat(ss: seq<string>): string
    decreases |ss|
  {
    if |ss| == 0 then "" else ss[0] + Concat(ss[1..])
  }

  /** The payloads of a sequence of frames, joined: the text a listener reads back. */
  function RecoverText(chunks: seq<string>): (text: string)
    requires forall i :: 0 <= i < |chunks| ==> IsFrame(chunks[i])
    ensures |text| + 8 * |chunks| == |Concat(chunks)|
    decreases |chunks|
  {
    if |chunks| == 0 then "" else Unframe(chunks[0]) + RecoverText(chunks[1..])
  }

  /** The loop yields exactly one frame per text delta before the first
      `message_stop`, in the order of the events. */
  lemma {:induction false} StreamFramesAreDeltaFrames(events: seq<Event>)
    ensures StreamFrames(events) == Frames(DeltaTexts(events[..StopIndex(events)]))
    decreases |events|
  {
    if |events| == 0 {
      assert events[..0] == [];
    } else {
      var e := events[0];
      var k := StopIndex(events);
      if e.kind == MessageStop {
        assert events[..k] == [];
      } else {
        StreamFramesAreDeltaFrames(events[1..]);
        assert events[..k][1..] == events[1..][..k - 1];
        assert events[..k][0] == e;
      }
    }
  }

  /** Nothing after the first `message_stop` is looked at. */
  lemma {:induction false} NothingAfterStop(before: seq<Event>, stop: Event, after: seq<Event>)
    requires stop.kind == MessageStop
    requires forall i :: 0 <= i < |before| ==> before[i].kind != MessageStop
    ensures StreamFrames(before + [stop] + after) == StreamFrames(before)
    decreases |before|
  {
    if |before| == 0 {
      assert (before + [stop] + after)[0] == stop;
    } else {
      NothingAfterStop(before[1..], stop, after);
      assert (before + [stop] + after)[1..] == before[1..] + [stop] + after;
    }
  }

  /** Stripping prefix and suffix from every yielded frame and joining the
      payloads gives back the concatenated delta texts before the first `message_stop`. */
  lemma {:induction false} RecoverTextOfFrames(texts: seq<string>)
    ensures RecoverText(Frames(texts)) == Concat(texts)
    decreases |texts|
  {
    if |texts| > 0 {
      RecoverTextOfFrames(texts[1..]);
      assert Frames(texts)[1..] == Frames(texts[1..]);
    }
  }

  /** The listener-side round trip over a whole stream. */
  lemma StreamRoundTrip(events: seq<Event>)
    ensures RecoverText(StreamFrames(events)) == Concat(DeltaTexts(events[..StopIndex(events)]))
  {
    StreamFramesAreDeltaFrames(events);
    RecoverTextOfFrames(DeltaTexts(events[..StopIndex(events)]));
  }

  /** `stream_response(messages)` fed by `source`: an `APIError` from the call
      is re-raised unchanged before anything is yielded; otherwise the frames are
      yielded and a failure of the stream that reaches the loop (no
      `message_stop` came first) becomes STREAMING_ERROR with status 500. */
  function StreamResponse(source: EventSource): (r: StreamOutcome)
    ensures source.CallFailed? ==> r.chunks == [] && r.error == Some(CallError(source.reason))
    ensures source.Streamed? ==> r.chunks == StreamFrames(source.events)
    ensures source.Streamed? ==>
      (r.error.Some? <==> source.failure.Some? && StopIndex(source.events) == |source.events|)
    ensures source.Streamed? && r.error.Some? ==> r.error.value == StreamingError(source.failure.value)
    ensures r.error.Some? ==> r.error.value.code in {"CLAUDE_API_ERROR", "STREAMING_ERROR"}
  {
    match source
    case CallFailed(reason) => StreamOutcome([], Some(CallError(reason)))
    case Streamed(events, failure) =>
      var reached := failure.Some? && StopIndex(events) == |events|;
      StreamOutcome(StreamFrames(events), if reached then Some(StreamingError(failure.value)) else None)
  }
}

=== FILE: conversation.dfy ===
/** The bounded, ordered message history of `ConversationManager`
    (src/api/services/conversation_manager.py). */
module Conversation {

  /** One entry of the history: the dictionary `{role, content}`. */
  datatype Message = Message(role: string, content: string)

  /** A manager: its configured bound and its history, oldest message first. */
  datatype Manager = Manager(maxContext: int, messages: seq<Message>)

  const DefaultMaxContext: int := 10

  function Min(a: int, b: int): int {
    if a <= b then a else b
  }

  /** Python's `s[k:]` for any integer `k`: a negative `k` counts from the end
      and both kinds of bound are clamped to the sequence. */
  function SliceFrom<T>(s: seq<T>, k: int): (r: seq<T>)
    ensures 0 <= k ==> r == s[Min(k, |s|)..]
    ensures k < 0 && -k <= |s| ==> r == s[|s| + k..]
    ensures k < 0 && |s| < -k ==> r == s
  {
    if k < 0 then (if |s| + k < 0 then s else s[|s| + k..])
    else if k <= |s| then s[k..]
    else []
  }

  /** Reference definition: the last `n` elements of `s` (all of `s` when it is shorter). */
  function LastN<T>(s: seq<T>, n: nat): (r: seq<T>)
    ensures |r| == Min(n, |s|)
  {
    s[|s| - Min(n, |s|)..]
  }

  /** The state a manager is meant to stay in: a positive bound that the history respects. */
  predicate Bounded(m: Manager) {
    1 <= m.maxContext && |m.messages| <= m.maxContext
  }

  /** `ConversationManager.__init__`. */
  function New(maxContext: int := DefaultMaxContext): (m: Manager)
    ensures m.maxContext == maxContext && m.messages == []
    ensures 1 <= maxContext ==> Bounded(m)
  {
    Manager(maxContext, [])
  }

  /** `_trim_history`: when the history is longer than the bound, keep the slice
      `messages[-max:]`. For a positive bound that is the most recent `max`
      messages; for a zero bound the slice `[-0:]` keeps everything; a negative
      bound drops the first `-max` messages. */
  function Trim(m: Manager): (r: Manager)
    ensures r.maxContext == m.maxContext
    ensures 1 <= m.maxContext ==> r.messages == LastN(m.messages, m.maxContext)
    ensures m.maxContext == 0 ==> r.messages == m.messages
    ensures m.maxContext < 0 ==> r.messages == m.messages[Min(-m.maxContext, |m.messages|)..]
  {
    if |m.messages| > m.maxContext then m.(messages := SliceFrom(m.messages, -m.maxContext))
    else m
  }

  /** `add_message`: append `{role, content}` and trim. */
  function AddMessage(m: Manager, role: string, content: string): (r: Manager)
    ensures r.maxContext == m.maxContext
    ensures 1 <= m.maxContext ==> r.messages == LastN(m.messages + [Message(role, content)], m.maxContext)
    ensures 1 <= m.maxContext ==> Bounded(r)
    ensures 1 <= m.maxContext ==> |r.messages| == Min(m.maxContext, |m.messages| + 1)
    ensures 1 <= m.maxContext ==> r.messages[|r.messages| - 1] == Message(role, content)
    ensures m.maxContext == 0 ==> r.messages == m.messages + [Message(role, content)]
  {
    Trim(m.(messages := m.messages + [Message(role, content)]))
  }

  /** `get_messages`: a copy of the history. Sequences are values, so a caller
      that extends or edits the copy cannot reach the stored history. */
  function GetMessages(m: Manager): (r: seq<Message>)
    ensures r == m.messages
  {
    m.messages
  }

  /** `clear`. */
  function Clear(m: Manager): (r: Manager)
    ensures r.maxContext == m.maxContext && r.messages == []
    ensures 1 <= m.maxContext ==> Bounded(r)
  {
    m.(messages := [])
  }

  /** `get_context_size`. */
  function ContextSize(m: Manager): (n: nat)
    ensures n == |GetMessages(m)|
  {
    |m.messages|
  }

  /** Adds the messages of `ms` one after another, as a caller of `add_message` would. */
  function AddAll(m: Manager, ms: seq<Message>): Manager
    decreases |ms|
  {
    if |ms| == 0 then m
    else AddAll(AddMessage(m, ms[0].role, ms[0].content), ms[1..])
  }

  /** Taking the last `n` of a suffix that is at least that long is taking the last `n` of the whole. */
  lemma LastNOfLongSuffix<T>(p: seq<T>, s: seq<T>, n: nat)
    requires Min(n, |p + s|) <= |s|
    ensures LastN(s, n) == LastN(p + s, n)
  {
    var k := Min(n, |p + s|);
    assert Min(n, |s|) == k;
    assert (p + s)[|p + s| - k..] == s[|s| - k..];
  }

  /** Trimming before more messages arrive changes nothing about what is finally kept. */
  lemma LastNOfLastN<T>(a: seq<T>, b: seq<T>, n: nat)
    ensures LastN(LastN(a, n) + b, n) == LastN(a + b, n)
  {
    var c := LastN(a, n);
    var p := a[..|a| - |c|];
    assert a == p + c;
    assert a + b == p + (c + b);
    LastNOfLongSuffix(p, c + b, n);
  }

  lemma SplitFirst<T>(a: seq<T>, s: seq<T>)
    requires |s| > 0
    ensures a + [s[0]] + s[1..] == a + s
  {
    assert [s[0]] + s[1..] == s;
  }

  /** One step of `AddAll`, stated on the message sequence it adds. */
  lemma AddFirstOfMany(m: Manager, ms: seq<Message>)
    requires 1 <= m.maxContext && |ms| > 0
    ensures AddMessage(m, ms[0].role, ms[0].content).messages == LastN(m.messages + [ms[0]], m.maxContext)
  {
    assert Message(ms[0].role, ms[0].content) == ms[0];
  }

  /** However many messages are added to a bounded manager, the history is the
      most recent `maxContext` of everything seen, in the order it was added. */
  lemma {:induction false} AddAllKeepsMostRecent(m: Manager, ms: seq<Message>)
    requires Bounded(m)
    ensures AddAll(m, ms).maxContext == m.maxContext
    ensures AddAll(m, ms).messages == LastN(m.messages + ms, m.maxContext)
    ensures Bounded(AddAll(m, ms))
    decreases |ms|
  {
    if |ms| == 0 {
      assert m.messages + ms == m.messages;
    } else {
      var m1 := AddMessage(m, ms[0].role, ms[0].content);
      var rest := ms[1..];
      AddFirstOfMany(m, ms);
      AddAllKeepsMostRecent(m1, rest);
      LastNOfLastN(m.messages + [ms[0]], rest, m.maxContext);
      SplitFirst(m.messages, ms);
    }
  }

  /** Two consecutive adds keep the most recent messages of the history followed by both. */
  lemma AddTwoKeepsMostRecent(m: Manager, first: Message, second: Message)
    requires Bounded(m)
    ensures AddMessage(AddMessage(m, first.role, first.content), second.role, second.content).messages
         == LastN(m.messages + [first, second], m.maxContext)
  {
    var m1 := AddMessage(m, first.role, first.content);
    assert m1.messages == LastN(m.messages + [first], m.maxContext);
    assert AddMessage(m1, second.role, second.content).messages == LastN(m1.messages + [second], m.maxContext);
    LastNOfLastN(m.messages + [first], [second], m.maxContext);
    assert m.messages + [first] + [second] == m.messages + [first, second];
  }

  /** Every operation keeps a bounded manager bounded. */
  lemma OperationsPreserveBound(m: Manager, role: string, content: string)
    requires Bounded(m)
    ensures Bounded(AddMessage(m, role, content))
    ensures Bounded(Trim(m)) && Trim(m) == m
    ensures Bounded(Clear(m))
  {
  }

  /** With a bound of one, the history is exactly the latest message. */
  lemma MaxOneKeepsLatest(m: Manager, role: string, content: string)
    requires m.maxContext == 1
    ensures AddMessage(m, role, content).messages == [Message(role, content)]
  {
  }

  /** Clearing twice is clearing once. */
  lemma ClearIdempotent(m: Manager)
    ensures Clear(Clear(m)) == Clear(m)
    ensures ContextSize(Clear(m)) == 0
  {
  }

  /** With a zero bound the slice `[-0:]` keeps the whole history, so nothing is
      ever dropped: the bound only takes effect when it is at least one. */
  lemma {:induction false} ZeroBoundKeepsEverything(m: Manager, ms: seq<Message>)
    requires m.maxContext == 0
    ensures AddAll(m, ms).messages == m.messages + ms
    decreases |ms|
  {
    if |ms| == 0 {
      assert m.messages + ms == m.messages;
    } else {
      var m1 := AddMessage(m, ms[0].role, ms[0].content);
      assert AddAll(m, ms) == AddAll(m1, ms[1..]);
      ZeroBoundKeepsEverything(m1, ms[1..]);
      assert m1.messages == m.messages + [ms[0]];
      SplitFirst(m.messages, ms);
    }
  }

  /** What `get_messages` shows after `add_message`: the new message last, the
      earlier history before it with only the oldest entries dropped, and never
      more than the bound. */
  lemma GetMessagesAfterAdd(m: Manager, role: string, content: string)
    requires Bounded(m)
    ensures var shown := GetMessages(AddMessage(m, role, content));
            && 0 < |shown| <= m.maxContext
            && shown[|shown| - 1] == Message(role, content)
            && shown[..|shown| - 1] == m.messages[|m.messages| + 1 - |shown|..]
  {
    var all := m.messages + [Message(role, content)];
    var shown := GetMessages(AddMessage(m, role, content));
    assert shown == all[|all| - |shown|..];
    assert shown[..|shown| - 1] == all[|all| - |shown|..|all| - 1];
    assert all[..|all| - 1] == m.messages;
  }
}

=== FILE: errors.dfy ===
/** Error values and the outcome mapping of the `handle_errors` decorator
    (src/api/utils/error_handlers.py). */
module Errors {

  /** An `APIError`: human-readable message, machine-readable code and HTTP status. */
  datatype ApiError = ApiError(message: string, code: string, statusCode: int)

  /** The JSON object `{error, code, status}` an error is reported as. */
  datatype ErrorBody = ErrorBody(error: string, code: string, status: int)

  /** What a route handler did: returned a value, raised an `APIError`, or raised
      any other exception (described by its text). */
  datatype Outcome<+T> =
    | Returned(value: T)
    | RaisedApi(error: ApiError)
    | RaisedOther(reason: string)

  /** What the decorated handler hands to the web framework: the handler's own
      value, or a JSON error body with an HTTP status. */
  datatype Response<+T> =
    | Passed(value: T)
    | ErrorReply(body: ErrorBody, status: int)

  const DefaultCode: string := "API_ERROR"
  const DefaultStatus: int := 500

  const InternalErrorBody: ErrorBody :=
    ErrorBody("An unexpected error occurred", "INTERNAL_ERROR", 500)

  /** The constructor of `APIError`, with its default code and status. */
  function NewApiError(message: string, code: string := DefaultCode, statusCode: int := DefaultStatus): ApiError {
    ApiError(message, code, statusCode)
  }

  /** `APIError.to_dict`. */
  function ToDict(e: ApiError): ErrorBody {
    ErrorBody(e.message, e.code, e.statusCode)
  }

  /** Reads an error back from its JSON body: the partner of `ToDict`. */
  function FromDict(b: ErrorBody): ApiError {
    ApiError(b.error, b.code, b.status)
  }

  /** An error created with only a message reports code API_ERROR and status 500. */
  lemma DefaultsAreApiError500(message: string)
    ensures NewApiError(message) == ApiError(message, "API_ERROR", 500)
    ensures ToDict(NewApiError(message)) == ErrorBody(message, "API_ERROR", 500)
  {
  }

  /** `to_dict` loses nothing: the body determines the error and back. */
  lemma ToDictRoundTrip(e: ApiError, b: ErrorBody)
    ensures FromDict(ToDict(e)) == e
    ensures ToDict(FromDict(b)) == b
  {
  }

  /** The wrapper installed by `handle_errors`: a normal result passes through,
      an `APIError` becomes its dictionary with its own status, anything else
      becomes a fixed INTERNAL_ERROR body with status 500. */
  function HandleErrors<T>(o: Outcome<T>): (r: Response<T>)
    ensures r.Passed? <==> o.Returned?
    ensures o.Returned? ==> r.value == o.value
    ensures o.RaisedApi? ==> FromDict(r.body) == o.error && r.status == o.error.statusCode
    ensures o.RaisedOther? ==> r.body == InternalErrorBody && r.status == 500
    ensures r.ErrorReply? ==> r.body.status == r.status
  {
    match o
    case Returned(v) => Passed(v)
    case RaisedApi(e) => ErrorReply(ToDict(e), e.statusCode)
    case RaisedOther(_) => ErrorReply(InternalErrorBody, 500)
  }
}

=== FILE: py_strings.dfy ===
/** The two Python string methods the chat route relies on: `str.strip()` with
    no argument and `str.replace(old, "")`. */
module PyStrings {

  /** `str.isspace` for one character: the ASCII whitespace and separator
      characters and the Unicode space separators and line/paragraph separators. */
  predicate IsSpace(c: char) {
    || c == ' '
    || ('\t' <= c <= '\r')
    || ('\U{1c}' <= c <= '\U{1f}')
    || c == '\U{85}' || c == '\U{a0}' || c == '\U{1680}'
    || ('\U{2000}' <= c <= '\U{200a}')
    || c == '\U{2028}' || c == '\U{2029}' || c == '\U{202f}' || c == '\U{205f}' || c == '\U{3000}'
  }

  predicate AllSpace(s: string) {
    forall i :: 0 <= i < |s| ==> IsSpace(s[i])
  }

  /** `s.lstrip()`: the suffix of `s` left after its leading whitespace. */
  function StripLeft(s: string): (r: string)
    ensures |r| <= |s| && r == s[|s| - |r|..]
    ensures AllSpace(s[..|s| - |r|])
    ensures |r| > 0 ==> !IsSpace(r[0])
    decreases |s|
  {
    if |s| > 0 && IsSpace(s[0]) then StripLeft(s[1..]) else s
  }

  /** `s.rstrip()`: the prefix of `s` left before its trailing whitespace. */
  function StripRight(s: string): (r: string)
    ensures |r| <= |s| && r == s[..|r|]
    ensures AllSpace(s[|r|..])
    ensures |r| > 0 ==> !IsSpace(r[|r| - 1])
    decreases |s|
  {
    if |s| > 0 && IsSpace(s[|s| - 1]) then StripRight(s[..|s| - 1]) else s
  }

  /** How many whitespace characters `strip` removes at the front. */
  function Leading(s: string): nat {
    |s| - |StripLeft(s)|
  }

  /** `s.strip()`: `s` without leading and trailing whitespace. The result is
      the infix of `s` that starts after the leading whitespace; everything cut
      off is whitespace; the result neither starts nor ends with whitespace; it
      is empty exactly when `s` is all whitespace. */
  function Strip(s: string): (r: string)
    ensures Leading(s) + |r| <= |s| && r == s[Leading(s)..Leading(s) + |r|]
    ensures AllSpace(s[..Leading(s)]) && AllSpace(s[Leading(s) + |r|..])
    ensures |r| > 0 ==> !IsSpace(r[0]) && !IsSpace(r[|r| - 1])
    ensures |r| == 0 <==> AllSpace(s)
  {
    var left := StripLeft(s);
    var k := |s| - |left|;
    var r := StripRight(left);
    StripParts(s, k, left, r);
    r
  }

  /** Cutting a whitespace prefix of length `k` and then a whitespace suffix
      leaves an infix of `s`, which is empty exactly when `s` is all whitespace
      (given that a non-empty result does not start with whitespace). */
  lemma StripParts(s: string, k: nat, left: string, r: string)
    requires k <= |s| && left == s[k..] && AllSpace(s[..k])
    requires |r| <= |left| && r == left[..|r|] && AllSpace(left[|r|..])
    requires |left| > 0 ==> !IsSpace(left[0])
    requires |r| > 0 ==> !IsSpace(r[|r| - 1])
    ensures k + |r| <= |s| && r == s[k..k + |r|]
    ensures |r| > 0 ==> !IsSpace(r[0]) && !IsSpace(r[|r| - 1])
    ensures AllSpace(s[k + |r|..])
    ensures |r| == 0 <==> AllSpace(s)
  {
    assert s[k + |r|..] == left[|r|..];
    if |r| == 0 {
      if |left| > 0 {
        assert false;
      }
      assert s[..k] == s;
    }
  }

  /** Stripping is idempotent. */
  lemma StripIdempotent(s: string)
    ensures Strip(Strip(s)) == Strip(s)
  {
    var r := Strip(s);
    if |r| > 0 {
      assert StripLeft(r) == r;
      assert StripRight(r) == r;
    }
  }

  /** `p` occurs in `s` starting at position `i`. */
  predicate OccursAt(s: string, p: string, i: int) {
    0 <= i && i + |p| <= |s| && s[i..i + |p|] == p
  }

  /** `p` occurs somewhere in `s`. */
  predicate Occurs(s: string, p: string) {
    exists i :: 0 <= i <= |s| && OccursAt(s, p, i)
  }

  /** An occurrence in the tail of `s` is an occurrence in `s`. */
  lemma OccursInTail(s: string, p: string)
    requires |s| > 0 && Occurs(s[1..], p)
    ensures Occurs(s, p)
  {
    var i :| 0 <= i <= |s[1..]| && OccursAt(s[1..], p, i);
    assert s[i + 1..i + 1 + |p|] == s[1..][i..i + |p|];
    assert OccursAt(s, p, i + 1);
  }

  /** `s.replace(p, "")`: scanning left to right, every non-overlapping
      occurrence of `p` is deleted; the text that remains is not rescanned. */
  function RemoveAll(s: string, p: string): (r: string)
    requires |p| > 0
    ensures |r| <= |s|
    ensures !Occurs(s, p) ==> r == s
    ensures Occurs(s, p) ==> |r| <= |s| - |p|
    decreases |s|
  {
    if |s| < |p| then
      assert !Occurs(s, p);
      s
    else if s[..|p|] == p then
      assert OccursAt(s, p, 0);
      RemoveAll(s[|p|..], p)
    else
      assert Occurs(s[1..], p) <==> Occurs(s, p) by {
        if Occurs(s[1..], p) {
          OccursInTail(s, p);
        }
        if Occurs(s, p) {
          OccursLater(s, p);
        }
      }
      [s[0]] + RemoveAll(s[1..], p)
  }

  /** An occurrence that is not at the front is an occurrence in the tail. */
  lemma OccursLater(s: string, p: string)
    requires |s| > 0 && |p| > 0 && Occurs(s, p) && !OccursAt(s, p, 0)
    ensures Occurs(s[1..], p)
  {
    var i :| 0 <= i <= |s| && OccursAt(s, p, i);
    assert i > 0;
    assert s[1..][i - 1..i - 1 + |p|] == s[i..i + |p|];
    assert OccursAt(s[1..], p, i - 1);
  }

  /** A leading occurrence is deleted and scanning resumes after it. */
  lemma RemoveLeading(p: string, t: string)
    requires |p| > 0
    ensures RemoveAll(p + t, p) == RemoveAll(t, p)
  {
    assert (p + t)[..|p|] == p;
    assert (p + t)[|p|..] == t;
  }

  /** Positions in the tail of `s` are the positions of `s` shifted by one. */
  lemma OccursAtTail(s: string, p: string, j: nat)
    requires |s| > 0
    ensures OccursAt(s[1..], p, j) <==> OccursAt(s, p, j + 1)
  {
    if j + 1 + |p| <= |s| {
      assert s[1..][j..j + |p|] == s[j + 1..j + 1 + |p|];
    }
  }

  /** Text before the first occurrence is kept as it is, that occurrence is
      deleted, and scanning resumes right after it. With `!Occurs(s, p) ==>
      RemoveAll(s, p) == s` this determines `replace(p, "")` on every input:
      every occurrence the left-to-right scan meets is deleted. */
  lemma {:induction false} RemoveFirstOccurrence(a: string, p: string, b: string)
    requires |p| > 0
    requires forall j :: 0 <= j < |a| ==> !OccursAt(a + p + b, p, j)
    ensures RemoveAll(a + p + b, p) == a + RemoveAll(b, p)
    decreases |a|
  {
    var s := a + p + b;
    if |a| == 0 {
      assert s == p + b;
      RemoveLeading(p, b);
    } else {
      var t := a[1..] + p + b;
      assert s[1..] == t;
      assert !OccursAt(s, p, 0);
      assert s[..|p|] != p;
      forall j | 0 <= j < |a[1..]|
        ensures !OccursAt(t, p, j)
      {
        OccursAtTail(s, p, j);
      }
      RemoveFirstOccurrence(a[1..], p, b);
      assert RemoveAll(s, p) == [s[0]] + RemoveAll(t, p);
      assert [a[0]] + a[1..] == a;
    }
  }

  /** Appending text that shares no character with `p` cannot create an occurrence of `p`. */
  lemma NoOccurrenceAcross(t: string, q: string, p: string)
    requires |p| > 0 && !Occurs(t, p)
    requires forall i, j :: 0 <= i < |q| && 0 <= j < |p| ==> q[i] != p[j]
    ensures !Occurs(t + q, p)
  {
    var s := t + q;
    forall i | 0 <= i <= |s|
      ensures !OccursAt(s, p, i)
    {
      if i + |p| <= |t| {
        assert s[i..i + |p|] == t[i..i + |p|];
        assert !OccursAt(t, p, i);
      } else if i + |p| <= |s| {
        var k := if i < |t| then |t| - i else 0;
        assert s[i..i + |p|][k] == q[i + k - |t|];
      }
    }
  }

  /** Removing the blank-line terminator from `t + "\n\n"` gives back `t` when `t`
      holds no blank line of its own, even when `t` ends in one line break. */
  lemma {:induction false} RemoveTerminator(t: string)
    requires !Occurs(t, "\n\n")
    ensures RemoveAll(t + "\n\n", "\n\n") == t
    decreases |t|
  {
    var s := t + "\n\n";
    if |t| == 0 {
      assert s[..2] == "\n\n" && s[2..] == "";
    } else if |t| == 1 && t[0] == '\n' {
      assert s[..2] == "\n\n" && s[2..] == "\n";
    } else {
      assert !OccursAt(t, "\n\n", 0);
      assert s[..2] != "\n\n" by {
        if |t| >= 2 {
          assert t[0..2] == s[..2];
        } else {
          assert s[..2][0] == t[0] != '\n';
        }
      }
      assert !Occurs(t[1..], "\n\n") by {
        if Occurs(t[1..], "\n\n") {
          OccursInTail(t, "\n\n");
        }
      }
      RemoveTerminator(t[1..]);
      assert s[1..] == t[1..] + "\n\n";
      assert [t[0]] + t[1..] == t;
    }
  }
}

=== FILE: rate_limiter.dfy ===
/** The in-memory sliding-window limiter of src/api/utils/rate_limiter.py and the
    allow/deny branch of its `rate_limit` decorator. Time is an integer parameter
    (the source reads a floating-point wall clock). */
module RateLimiter {
  import opened Errors

  /** `RateLimiter`: the cap, the window length and, per identifier, the times of
      the calls it admitted, oldest first. */
  datatype Limiter = Limiter(maxCalls: int, period: int, calls: map<string, seq<int>>)

  /** The limiter after one `is_allowed` call, and that call's answer. */
  datatype Decision = Decision(limiter: Limiter, allowed: bool)

  /** What the decorated handler returns: the fixed 429 reply, or the handler's own value. */
  datatype Gated<+T> = Throttled(body: ErrorBody, status: int) | Forwarded(value: T)

  /** The decorator's effect: the limiter after the check, the handler's state
      (unchanged when the handler did not run) and the outcome. */
  datatype Guarded<S, T> = Guarded(limiter: Limiter, state: S, outcome: Outcome<Gated<T>>)

  const RateLimitedBody: ErrorBody := ErrorBody("Rate limit exceeded", "RATE_LIMIT_EXCEEDED", 429)
  const RateLimitedStatus: int := 429

  /** Every caller of a decorated endpoint shares this one identifier. */
  const SharedIdentifier: string := "default"

  /** `RateLimiter.__init__`. */
  function New(maxCalls: int, period: int): (l: Limiter)
    ensures l.maxCalls == maxCalls && l.period == period && l.calls == map[]
    ensures 0 <= maxCalls ==> Valid(l)
  {
    Limiter(maxCalls, period, map[])
  }

  /** A call made at `t` still counts at `now`. */
  predicate Recent(t: int, now: int, period: int) {
    now - t < period
  }

  /** The calls remembered for `id`; an unknown identifier has none. */
  function History(l: Limiter, id: string): seq<int> {
    if id in l.calls then l.calls[id] else []
  }

  /** The limiter's invariant: no identifier has more remembered calls than the cap. */
  predicate Valid(l: Limiter) {
    0 <= l.maxCalls && forall k :: k in l.calls ==> |l.calls[k]| <= l.maxCalls
  }

  /** The list comprehension that forgets calls outside the window: it keeps
      exactly the recent calls. */
  function Prune(ts: seq<int>, now: int, period: int): (r: seq<int>)
    ensures |r| <= |ts|
    ensures forall t :: t in r <==> t in ts && Recent(t, now, period)
    decreases |ts|
  {
    if |ts| == 0 then []
    else
      var last := ts[|ts| - 1];
      Prune(ts[..|ts| - 1], now, period) + (if Recent(last, now, period) then [last] else [])
  }

  /** `is_allowed(identifier)` at time `now`: prune the identifier's calls, then
      admit and record `now` if fewer than `maxCalls` remain. */
  function IsAllowed(l: Limiter, id: string, now: int): (d: Decision)
    ensures d.limiter.maxCalls == l.maxCalls && d.limiter.period == l.period
    ensures d.allowed <==> |Prune(History(l, id), now, l.period)| < l.maxCalls
    ensures d.limiter.calls.Keys == l.calls.Keys + {id}
    ensures History(d.limiter, id) == Prune(History(l, id), now, l.period) + (if d.allowed then [now] else [])
    ensures forall k :: k in l.calls && k != id ==> d.limiter.calls[k] == l.calls[k]
    ensures 0 <= l.maxCalls && |History(l, id)| <= l.maxCalls ==> |History(d.limiter, id)| <= l.maxCalls
    ensures Valid(l) ==> Valid(d.limiter)
  {
    var pruned := Prune(History(l, id), now, l.period);
    if |pruned| < l.maxCalls then Decision(l.(calls := l.calls[id := pruned + [now]]), true)
    else Decision(l.(calls := l.calls[id := pruned]), false)
  }

  /** `rate_limit(...)(f)` called once at time `now`: a denied call answers with
      the 429 body and never runs the handler, so the handler's state `s` is
      untouched; an admitted call returns whatever the handler returned or raised. */
  function RateLimit<S, T>(l: Limiter, now: int, s: S, handler: S -> (S, Outcome<T>)): (r: Guarded<S, T>)
    ensures r.limiter == IsAllowed(l, SharedIdentifier, now).limiter
    ensures !IsAllowed(l, SharedIdentifier, now).allowed ==>
      r.state == s && r.outcome == Returned(Throttled(RateLimitedBody, RateLimitedStatus))
    ensures IsAllowed(l, SharedIdentifier, now).allowed ==> r.state == handler(s).0
    ensures IsAllowed(l, SharedIdentifier, now).allowed && handler(s).1.Returned? ==>
      r.outcome == Returned(Forwarded(handler(s).1.value))
    ensures IsAllowed(l, SharedIdentifier, now).allowed && handler(s).1.RaisedApi? ==>
      r.outcome == RaisedApi(handler(s).1.error)
    ensures IsAllowed(l, SharedIdentifier, now).allowed && handler(s).1.RaisedOther? ==>
      r.outcome == RaisedOther(handler(s).1.reason)
  {
    var d := IsAllowed(l, SharedIdentifier, now);
    if !d.allowed then Guarded(d.limiter, s, Returned(Throttled(RateLimitedBody, RateLimitedStatus)))
    else
      var (s', o) := handler(s);
      var lifted := match o
        case Returned(v) => Returned(Forwarded(v))
        case RaisedApi(e) => RaisedApi(e)
        case RaisedOther(why) => RaisedOther(why);
      Guarded(d.limiter, s', lifted)
  }

  /** Pruning keeps the survivors in their original order: it distributes over concatenation. */
  lemma {:induction false} PruneAppend(a: seq<int>, b: seq<int>, now: int, period: int)
    ensures Prune(a + b, now, period) == Prune(a, now, period) + Prune(b, now, period)
    decreases |b|
  {
    if |b| == 0 {
      assert a + b == a;
    } else {
      var b' := b[..|b| - 1];
      var last := b[|b| - 1];
      assert (a + b)[..|a + b| - 1] == a + b';
      assert (a + b)[|a + b| - 1] == last;
      PruneAppend(a, b', now, period);
    }
  }

  /** Pruning at an earlier time and then at a later one is pruning at the later one. */
  lemma {:induction false} PruneTwice(ts: seq<int>, earlier: int, later: int, period: int)
    requires earlier <= later
    ensures Prune(Prune(ts, earlier, period), later, period) == Prune(ts, later, period)
    decreases |ts|
  {
    if |ts| > 0 {
      var init := ts[..|ts| - 1];
      var last := ts[|ts| - 1];
      PruneTwice(init, earlier, later, period);
      var keep := if Recent(last, earlier, period) then [last] else [];
      PruneAppend(Prune(init, earlier, period), keep, later, period);
      assert Prune([last], later, period) == (if Recent(last, later, period) then [last] else []) by {
        assert [last][..0] == [];
      }
    }
  }

  /** The times at which requests were admitted, in order. */
  function Admitted(ts: seq<int>, ds: seq<bool>): (r: seq<int>)
    requires |ts| == |ds|
    ensures |r| <= |ts|
    decreases |ts|
  {
    if |ts| == 0 then []
    else Admitted(ts[..|ts| - 1], ds[..|ds| - 1]) + (if ds[|ds| - 1] then [ts[|ts| - 1]] else [])
  }

  predicate NonDecreasing(ts: seq<int>) {
    forall i, j :: 0 <= i < j < |ts| ==> ts[i] <= ts[j]
  }

  /** Requests for `id` arriving at `times`, one `is_allowed` call each: the
      final limiter and the answers, in order. */
  function Replay(l: Limiter, id: string, times: seq<int>): (r: (Limiter, seq<bool>))
    ensures |r.1| == |times|
    ensures r.0.maxCalls == l.maxCalls && r.0.period == l.period
    decreases |times|
  {
    if |times| == 0 then (l, [])
    else
      var (l', ds) := Replay(l, id, times[..|times| - 1]);
      var d := IsAllowed(l', id, times[|times| - 1]);
      (d.limiter, ds + [d.allowed])
  }

  /** The answers to a prefix of the requests are a prefix of the answers. */
  lemma {:induction false} ReplayPrefix(l: Limiter, id: string, times: seq<int>, k: nat)
    requires k <= |times|
    ensures Replay(l, id, times[..k]).1 == Replay(l, id, times).1[..k]
    decreases |times|
  {
    if k < |times| {
      var init := times[..|times| - 1];
      ReplayPrefix(l, id, init, k);
      assert init[..k] == times[..k];
    } else {
      assert times[..k] == times;
    }
  }

  /** One more request in a replay: the last answer is that of `is_allowed` on
      the limiter the earlier requests left, and the admitted times grow by that
      request's time exactly when it was admitted. */
  lemma ReplayLast(l: Limiter, id: string, times: seq<int>)
    requires |times| > 0
    ensures var init := times[..|times| - 1];
            var now := times[|times| - 1];
            var prior := Replay(l, id, init);
            var d := IsAllowed(prior.0, id, now);
            && Replay(l, id, times) == (d.limiter, prior.1 + [d.allowed])
            && Admitted(times, Replay(l, id, times).1)
               == Admitted(init, prior.1) + (if d.allowed then [now] else [])
  {
    var init := times[..|times| - 1];
    var prior := Replay(l, id, init);
    var d := IsAllowed(prior.0, id, times[|times| - 1]);
    assert (prior.1 + [d.allowed])[..|times| - 1] == prior.1;
  }

  /** A call made at `now` is recent at `now`. */
  lemma PruneNow(now: int, period: int)
    requires 0 < period
    ensures Prune([now], now, period) == [now]
  {
    assert [now][..0] == [];
  }

  /** Starting from no history and with time never going back, the limiter
      remembers exactly the admitted calls that are still recent, and never more
      than the cap. */
  lemma {:induction false} ReplayRemembersRecentAdmissions(l: Limiter, id: string, times: seq<int>)
    requires History(l, id) == [] && 0 < l.period && 0 <= l.maxCalls
    requires NonDecreasing(times) && |times| > 0
    ensures History(Replay(l, id, times).0, id)
         == Prune(Admitted(times, Replay(l, id, times).1), times[|times| - 1], l.period)
    ensures |History(Replay(l, id, times).0, id)| <= l.maxCalls
    decreases |times|
  {
    var n := |times|;
    var init := times[..n - 1];
    var now := times[n - 1];
    var prior := Replay(l, id, init);
    var before := Admitted(init, prior.1);
    var d := IsAllowed(prior.0, id, now);
    ReplayLast(l, id, times);
    if n == 1 {
      assert before == [] && History(prior.0, id) == [];
    } else {
      ReplayRemembersRecentAdmissions(l, id, init);
      PruneTwice(before, init[n - 2], now, l.period);
    }
    assert Prune(History(prior.0, id), now, l.period) == Prune(before, now, l.period);
    PruneAppend(before, if d.allowed then [now] else [], now, l.period);
    if d.allowed {
      PruneNow(now, l.period);
    }
  }

  /** The promise of a sliding-window limiter: at the time of any request, the
      admitted requests of the last `period` time units number at most `maxCalls`. */
  lemma SlidingWindowBound(l: Limiter, id: string, times: seq<int>, k: nat)
    requires History(l, id) == [] && 0 < l.period && 0 <= l.maxCalls
    requires NonDecreasing(times) && k < |times|
    ensures |Prune(Admitted(times[..k + 1], Replay(l, id, times).1[..k + 1]), times[k], l.period)| <= l.maxCalls
  {
    var pre := times[..k + 1];
    NonDecreasingPrefix(times, k + 1);
    ReplayRemembersRecentAdmissions(l, id, pre);
    ReplayPrefix(l, id, times, k + 1);
    var ds := Replay(l, id, pre).1;
    assert |Prune(Admitted(pre, ds), pre[|pre| - 1], l.period)| <= l.maxCalls;
    assert pre[|pre| - 1] == times[k];
  }

  /** A prefix of non-decreasing times is non-decreasing. */
  lemma NonDecreasingPrefix(times: seq<int>, n: nat)
    requires NonDecreasing(times) && n <= |times|
    ensures NonDecreasing(times[..n])
  {
  }

  /** The answer to the last request of a replay compares the admitted calls
      still recent at its time with the cap. */
  lemma LastAnswer(l: Limiter, id: string, times: seq<int>)
    requires History(l, id) == [] && 0 < l.period && 0 <= l.maxCalls
    requires NonDecreasing(times) && |times| > 0
    ensures var n := |times|;
            var before := Admitted(times[..n - 1], Replay(l, id, times[..n - 1]).1);
            Replay(l, id, times).1[n - 1] <==> |Prune(before, times[n - 1], l.period)| < l.maxCalls
  {
    var n := |times|;
    var init := times[..n - 1];
    var prior := Replay(l, id, init);
    ReplayLast(l, id, times);
    if n == 1 {
      assert Admitted(init, prior.1) == [] && History(prior.0, id) == [];
    } else {
      ReplayRemembersRecentAdmissions(l, id, init);
      PruneTwice(Admitted(init, prior.1), init[n - 2], times[n - 1], l.period);
    }
  }

  /** A request is denied exactly when the window already holds `maxCalls`
      admitted requests. */
  lemma DeniedIffWindowFull(l: Limiter, id: string, times: seq<int>, k: nat)
    requires History(l, id) == [] && 0 < l.period && 0 <= l.maxCalls
    requires NonDecreasing(times) && k < |times|
    ensures Replay(l, id, times).1[k]
        <==> |Prune(Admitted(times[..k], Replay(l, id, times).1[..k]), times[k], l.period)| < l.maxCalls
  {
    var pre := times[..k + 1];
    assert pre[..k] == times[..k] && pre[k] == times[k];
    LastAnswer(l, id, pre);
    ReplayPrefix(l, id, times, k + 1);
    ReplayPrefix(l, id, times, k);
  }
}

=== FILE: wrappers.dfy ===
/** Optional values, used for the attributes the source reads with `hasattr`
    and for the exception a stream may end with. */
module Wrappers {

  datatype Option<+T> = None | Some(value: T)
}
